=== FILE: README.md ===
# Phobos::DeepStruct, modelled in Dafny

`Phobos::DeepStruct` turns a nested value — usually a parsed configuration
file made of hashes, arrays and scalars — into a tree of attribute-accessible
nodes. Each node keeps two tables under the same symbolised keys:

- `@table`, the converted values: a `Hash` becomes a nested `DeepStruct`, any
  other `Enumerable` becomes an array of converted elements, and anything else
  is stored as given;
- `@hash_table`, the original values exactly as supplied, which `to_h` (alias
  `to_hash`) copies out so that callers can get back the input mapping with
  its top-level keys symbolised (a later key that symbolises like an earlier
  one overwrites it).

The model is functional. Inputs are a `Value` tree (`VHash` of key/value
pairs, `VList`, `VScalar`), keys are strings, symbols or other objects, and
`to_sym` is partial (`Values.ToSym`). Both tables are association lists with
the semantics of Ruby's `Hash` (`RubyHash`): assigning to a key already
present replaces its value in place, otherwise the pair is appended.
Construction is a `Result`: a key with no `to_sym` aborts it with
`NoToSym(key)`, the `NoMethodError` of the source.

Files:

- `wrappers.dfy`: `Option` and `Result`.
- `ruby_hash.dfy`: `Table`, `Keys`, `Find`, `Lookup` (`t[k]`), `Store` (`t[k] = v`).
- `values.dfy`: symbols, keys, scalars, the input `Value` tree, the `Hash` / `Enumerable` tests, `FirstBadKey`, and reference definitions used to state properties (`Symbolizable`, `SymbolizeTop`, `FirstOccurrences`, `LastValueFor`).
- `deep_struct.dfy`: `New` and `Initialize` (`initialize`, including the inherited constructor's pass over the top-level keys), `EachPair` and `StorePair` (its loop), `ToDeepStruct` and `MapToDeepStruct` (the private `to_deep_struct`), `ToH`, `ToHash`, `Get`.
- `deep_struct_lemmas.dfy`: properties that relate several calls.

Two behaviours follow the code:

- Reading an absent field answers `nil` (OpenStruct's behaviour), not a "field not found" error, so `Get` returns `None`.
- Two input keys that symbolise to the same symbol are not left undefined. The later pair overwrites the earlier one in both tables, and the key keeps the position where it first occurred.

## Model

| member | source | states |
|---|---|---|
| RubyHash.Store | lib/phobos/deep_struct.rb:16-17 | assigning to a table keeps its keys when the key is present and appends it otherwise; keys stay distinct |
| RubyHash.LookupAfterStore | lib/phobos/deep_struct.rb:16-17 | after `t[k] = v`, `t[k]` is `v` and every other key reads as before |
| Values.ToSym | lib/phobos/deep_struct.rb:15 | only strings and symbols have `to_sym`; any other key has none and raises |
| Values.ToSymIdempotent | lib/phobos/deep_struct.rb:15 | `to_sym` is idempotent: symbolising the symbol a key gives yields that symbol again, which is what replaying `to_h`'s keys relies on |
| Values.FirstBadKey | lib/phobos/deep_struct.rb:11 | finds the first top-level key with no `to_sym`, and finds none exactly when every top-level key symbolises |
| DeepStruct.New | lib/phobos/deep_struct.rb:10-19 | `nil` gives a node with empty tables and an empty `to_h`; a hash gives a node exactly when every key reachable in it has `to_sym`; a bad top-level key is the one reported; any failure names a key with no `to_sym`; both tables have the same keys in the same order, none twice |
| DeepStruct.Initialize | lib/phobos/deep_struct.rb:10-18 | succeeds exactly when every key reachable in the hash symbolises; the first bad top-level key is reported before any value is converted, otherwise the `each_pair` loop decides |
| DeepStruct.EachPair | lib/phobos/deep_struct.rb:14-18 | the loop succeeds exactly when every pair's key and nested keys symbolise; on success both tables have identical, distinct keys |
| DeepStruct.StorePair | lib/phobos/deep_struct.rb:15-17 | one iteration fails exactly when the key has no `to_sym` or its value cannot be converted; it writes both tables under the same key |
| DeepStruct.ToDeepStruct | lib/phobos/deep_struct.rb:28-37 | conversion succeeds exactly when every key in the value symbolises; the result is a node exactly when the value is a hash; a list keeps its length; a scalar is returned unchanged |
| DeepStruct.MapToDeepStruct | lib/phobos/deep_struct.rb:32-33 | mapping succeeds exactly when every element converts, and keeps the length |
| DeepStruct.ToH | lib/phobos/deep_struct.rb:21-22 | for a consistent node, `to_h` lists the same keys as the fields, each once and in the same order, and under each key holds the original value whose conversion is the field there |
| DeepStruct.ToHash | lib/phobos/deep_struct.rb:24 | `to_hash` returns the same table as `to_h` |
| DeepStruct.Get | lib/phobos/deep_struct.rb:16 | reading a field finds a value exactly when `@table` holds that name, and the value found is the one stored there under it; otherwise the answer is `nil` |
| DeepStructLemmas.StorePairConsistent | lib/phobos/deep_struct.rb:15-17 | one iteration keeps `@table` equal, position by position, to the conversion of `@hash_table` |
| DeepStructLemmas.EachPairConsistent | lib/phobos/deep_struct.rb:14-18 | after the loop, `@table` and `@hash_table` have the same keys in the same order and each converted value is the conversion of the snapshot value beside it |
| DeepStructLemmas.NewConsistent | lib/phobos/deep_struct.rb:10-18 | every node the constructor builds satisfies that invariant |
| DeepStruct.ConsistentKeys | lib/phobos/deep_struct.rb:16-17 | in a consistent node, `@table` and `@hash_table` list the same keys in the same order |
| DeepStructLemmas.FieldMatchesSnapshot | lib/phobos/deep_struct.rb:16-17 | a field is present exactly when `to_h` holds that name, and it is the conversion of the original value there |
| DeepStructLemmas.NilInput | lib/phobos/deep_struct.rb:10-22 | `DeepStruct.new(nil)` has empty tables, an empty `to_h` and no field |
| DeepStructLemmas.HashBecomesNode | lib/phobos/deep_struct.rb:29-31 | a hash is both `Hash` and `Enumerable`, yet converts into the node the constructor builds from it (a consistent node), or fails with the same error |
| DeepStructLemmas.MapToDeepStructElementwise | lib/phobos/deep_struct.rb:33 | element `i` of the mapped list is the conversion of input element `i` |
| DeepStructLemmas.ListKeepsLengthAndOrder | lib/phobos/deep_struct.rb:32-33 | a non-hash enumerable becomes a list of the same length and order, element by element converted |
| DeepStructLemmas.ToHRoundTrip | lib/phobos/deep_struct.rb:14-22 | without key collisions, `to_h` is the input with its top-level keys symbolised, in input order, nested values untouched |
| DeepStructLemmas.ToHLastPairWins | lib/phobos/deep_struct.rb:14-22 | under each symbol, `to_h` holds the original value of the last input pair whose key symbolises to it |
| DeepStructLemmas.FieldIsLastConverted | lib/phobos/deep_struct.rb:14-17 | under each symbol, the field is the conversion of the last input value whose key symbolises to it, and a symbol no key symbolises to has no field |
| DeepStructLemmas.EachPairKeyOrder | lib/phobos/deep_struct.rb:14-18 | the loop leaves the keys of `@hash_table` in order of first occurrence of each symbolised key |
| DeepStructLemmas.ToHKeyOrder | lib/phobos/deep_struct.rb:14-22 | the keys of `to_h` are the symbolised input keys in order of first occurrence |
| DeepStructLemmas.RebuildConsistent | lib/phobos/deep_struct.rb:14-18 | replaying a consistent node's snapshot, keys as symbols, through the loop gives back that node |
| DeepStructLemmas.RebuildFromToH | lib/phobos/deep_struct.rb:10-22 | building a node from a node's own `to_h` gives back the same node, so `to_h` loses nothing |
| DeepStructLemmas.CollisionExample | lib/phobos/deep_struct.rb:14-18 | for `{"a" => 1, :a => 2}` both tables hold the single key `:a` with value `2` |
| DeepStructLemmas.SinglePair | lib/phobos/deep_struct.rb:14-18 | a one-pair hash gives one converted field and one original snapshot entry under the symbolised key |
| DeepStructLemmas.NestedExample | lib/phobos/deep_struct.rb:28-31 | in `{"a" => {"b" => {"c" => 1}}}` fields `a` and `b` are nodes and `c` is `1`, while `to_h` returns the nested hashes unchanged |
| DeepStructLemmas.TopLevelKeyReportedFirst | lib/phobos/deep_struct.rb:11-16 | for `{"a" => {1 => nil}, 2 => nil}` the error names the top-level key `2`, not the nested key `1` inside the earlier pair's value |
| DeepStructLemmas.BadKeyAborts | lib/phobos/deep_struct.rb:15 | a key with no `to_sym` anywhere in the input aborts construction |

## Left out

- The inherited `OpenStruct` behaviour behind the `super` call at line 11 is modelled only in part. `Initialize` models its pass that calls `to_sym` on every top-level key before the loop runs, so a bad top-level key is reported first. Its generated accessor methods and `method_missing` are not modelled; field access is a plain lookup, `Get`. The library itself is not part of this model, so the first pass follows the behaviour of Ruby 2.3's `OpenStruct#initialize` that the comment above `initialize` refers to.
- Object identity and aliasing are not modelled: `dup` at line 22 is a shallow copy, and nested values are shared with the input. Dafny values have no identity, so only equality is stated. `to_h` is a pure function, so repeated calls give equal results and cannot change the node.
- Only finite enumerables that `map` converts eagerly (`Array`, `Set`, a finite `Range`, `Struct`) are represented, all by one list variant. Lazy enumerators are not: `map` on one returns another lazy enumerator, so its elements are not converted during construction and a bad key inside them does not abort it. Infinite non-lazy enumerators are not either: `map` on one never returns.
- Cyclic inputs are not represented, because Dafny datatypes are finite. In Ruby, a cyclic input, like any input nested deeper than the interpreter's stack allows, makes the recursion raise `SystemStackError`. The model has no depth limit, so it converts any finite input however deeply nested.
- Passing `new` an argument that is neither a hash nor `nil` is not modelled. The constructor takes `Option` of a pair list.
- Input hashes are pair lists that may repeat a key. Ruby hashes cannot do that, so the model is more general than the input can be.
- Scalars are limited to `nil`, booleans, integers, strings and symbols. Floats and other objects behave like any scalar (they pass through unchanged) and are not represented separately.
- String keys are valid character strings. A `String` key whose bytes are invalid in its encoding (for example `"\xFF"` tagged UTF-8), on which `to_sym` raises `EncodingError`, is not represented, because Dafny strings are sequences of characters; `Values.ToSym` therefore always symbolises a string key.
- Keys other than strings and symbols are one variant with no `to_sym`. The finer distinctions of Ruby's key objects are not modelled.

=== FILE: deep_struct.dfy ===
/**
  `Phobos::DeepStruct`: a node built from a hash (or `nil`) that keeps two
  tables under the same symbolised keys: `@table`, holding each value
  converted recursively (hashes become nodes, enumerables become lists of
  converted elements, scalars stay as they are), and `@hash_table`, holding
  each value exactly as given, from which `to_h` rebuilds the input.
 */
module DeepStruct {
  import opened Wrappers
  import opened RubyHash
  import opened Values

  /** A converted value, as stored in `@table`. */
  datatype Field =
    | FNode(node: Node)
    | FList(items: seq<Field>)
    | FScalar(scalar: Scalar)

  /** A `DeepStruct` instance: `@table` of converted values and `@hash_table` of original ones. */
  datatype Node = Node(table: Table<Symbol, Field>, hashTable: Table<Symbol, Value>)

  /**
    `to_h`: a copy of the snapshot table `@hash_table` (a shallow `dup`;
    identity is not modelled). For a consistent node it lists the same keys
    as the fields, once each and in the same order, and under each key it
    holds the original value that the field was converted from.
   */
  function ToH(n: Node): (h: Table<Symbol, Value>)
    ensures Consistent(n) ==> Keys(h) == Keys(n.table) && Distinct(Keys(h))
    ensures Consistent(n) ==> forall i | 0 <= i < |h| :: ToDeepStruct(h[i].1) == Success(n.table[i].1)
  {
    ToHFacts(n);
    n.hashTable
  }

  /** What a consistent node's snapshot says about its fields, entry by entry. */
  lemma ToHFacts(n: Node)
    ensures Consistent(n) ==> Keys(n.hashTable) == Keys(n.table)
    ensures Consistent(n) ==> forall i | 0 <= i < |n.hashTable| :: ToDeepStruct(n.hashTable[i].1) == Success(n.table[i].1)
  {
    if Consistent(n) {
      ConsistentKeys(n);
      forall i | 0 <= i < |n.hashTable|
        ensures ToDeepStruct(n.hashTable[i].1) == Success(n.table[i].1)
      {
        assert EntryAgrees(n, i);
      }
    }
  }

  /** `to_hash`, declared as an alias of `to_h`. */
  function ToHash(n: Node): (h: Table<Symbol, Value>)
    ensures h == ToH(n)
  {
    ToH(n)
  }

  /** Reading a field: OpenStruct answers `nil` for a name it does not hold. */
  function Get(n: Node, name: Symbol): (r: Option<Field>)
    ensures r.Some? <==> name in Keys(n.table)
    ensures r.Some? ==> (name, r.value) in n.table
  {
    Lookup(n.table, name)
  }

  /** The error that aborts construction: a key with no `to_sym` (`NoMethodError`). */
  datatype BuildError = NoToSym(key: Key)

  /** The node `DeepStruct.new(nil)` builds. */
  const EmptyNode := Node([], [])

  /** `DeepStruct.new(hash)`, with `None` for `nil`. */
  function New(hash: Option<seq<(Key, Value)>>): (r: Result<Node, BuildError>)
    ensures hash.None? ==> r.Success? && r.value.table == [] && ToH(r.value) == []
    ensures hash.Some? ==> (r.Success? <==> forall i | 0 <= i < |hash.value| :: PairSymbolizable(hash.value[i]))
    ensures hash.Some? && FirstBadKey(hash.value).Some? ==> r == Failure(NoToSym(FirstBadKey(hash.value).value))
    ensures r.Failure? ==> ToSym(r.error.key).None?
    ensures r.Success? ==> Keys(r.value.table) == Keys(r.value.hashTable)
    ensures r.Success? ==> Distinct(Keys(r.value.hashTable))
  {
    match hash
    case None => Success(EmptyNode)
    case Some(ps) => Initialize(ps)
  }

  /**
    `initialize` on a hash: the inherited OpenStruct constructor (`super`)
    first calls `to_sym` on every top-level key, so a bad top-level key is
    reported before any value is converted; then the `each_pair` loop runs.
   */
  function Initialize(ps: seq<(Key, Value)>): (r: Result<Node, BuildError>)
    decreases ps, 1
    ensures r.Success? <==> forall i | 0 <= i < |ps| :: PairSymbolizable(ps[i])
    ensures FirstBadKey(ps).Some? ==> r == Failure(NoToSym(FirstBadKey(ps).value))
    ensures FirstBadKey(ps).None? ==> r == EachPair(ps)
  {
    match FirstBadKey(ps)
    case Some(k) => Failure(NoToSym(k))
    case None => EachPair(ps)
  }

  /** The `each_pair` loop of `initialize`, run over all of `ps` starting from empty tables. */
  function EachPair(ps: seq<(Key, Value)>): (r: Result<Node, BuildError>)
    decreases ps, 0
    ensures r.Success? <==> forall i | 0 <= i < |ps| :: PairSymbolizable(ps[i])
    ensures r.Failure? ==> ToSym(r.error.key).None?
    ensures r.Success? ==> Keys(r.value.table) == Keys(r.value.hashTable)
    ensures r.Success? ==> Distinct(Keys(r.value.hashTable))
  {
    if ps == [] then Success(EmptyNode)
    else
      var acc :- EachPair(ps[..|ps| - 1]);
      StorePair(acc, ps[|ps| - 1])
  }

  /** One iteration of the loop: symbolise the key, store the converted value in `@table` and the original in `@hash_table`. */
  function StorePair(acc: Node, p: (Key, Value)): (r: Result<Node, BuildError>)
    decreases p
    ensures r.Success? <==> PairSymbolizable(p)
    ensures r.Failure? ==> ToSym(r.error.key).None?
    ensures r.Success? ==> Keys(r.value.hashTable) == Keys(Store(acc.hashTable, ToSym(p.0).value, p.1))
    ensures r.Success? && Keys(acc.table) == Keys(acc.hashTable) ==> Keys(r.value.table) == Keys(r.value.hashTable)
    ensures r.Success? && Distinct(Keys(acc.hashTable)) ==> Distinct(Keys(r.value.hashTable))
  {
    match ToSym(p.0)
    case None => Failure(NoToSym(p.0))
    case Some(key) =>
      var field :- ToDeepStruct(p.1);
      Success(Node(Store(acc.table, key, field), Store(acc.hashTable, key, p.1)))
  }

  /** `to_deep_struct`: the `case` tests `Hash` before `Enumerable`, and anything else passes through. */
  function ToDeepStruct(v: Value): (r: Result<Field, BuildError>)
    decreases v
    ensures r.Success? <==> Symbolizable(v)
    ensures r.Failure? ==> ToSym(r.error.key).None?
    ensures r.Success? ==> (r.value.FNode? <==> IsHash(v))
    ensures r.Success? && v.VList? ==> r.value.FList? && |r.value.items| == |v.items|
    ensures v.VScalar? ==> r == Success(FScalar(v.scalar))
  {
    if IsHash(v) then
      var node :- Initialize(v.pairs);
      Success(FNode(node))
    else if IsEnumerable(v) then
      var items :- MapToDeepStruct(v.items);
      Success(FList(items))
    else
      Success(FScalar(v.scalar))
  }

  /** The enumerable branch: converts each element in order, stopping at the first that fails. */
  function MapToDeepStruct(vs: seq<Value>): (r: Result<seq<Field>, BuildError>)
    decreases vs
    ensures r.Success? <==> forall i | 0 <= i < |vs| :: Symbolizable(vs[i])
    ensures r.Failure? ==> ToSym(r.error.key).None?
    ensures r.Success? ==> |r.value| == |vs|
  {
    if vs == [] then Success([])
    else
      var init :- MapToDeepStruct(vs[..|vs| - 1]);
      var last :- ToDeepStruct(vs[|vs| - 1]);
      Success(init + [last])
  }

  /**
    The invariant of a constructed node: both tables hold the same keys in
    the same order, with no key twice, and the entry of `@table` at each
    position is the conversion of the original value at that position of
    `@hash_table`.
   */
  ghost predicate Consistent(n: Node) {
    && |n.table| == |n.hashTable|
    && Distinct(Keys(n.hashTable))
    && forall i | 0 <= i < |n.table| :: EntryAgrees(n, i)
  }

  /** Entry `i` of `@table` has the key of entry `i` of `@hash_table` and holds the conversion of its value. */
  ghost predicate EntryAgrees(n: Node, i: nat)
    requires i < |n.table| && i < |n.hashTable|
  {
    n.table[i].0 == n.hashTable[i].0 && ToDeepStruct(n.hashTable[i].1) == Success(n.table[i].1)
  }

  /** A consistent node's two tables list the same keys in the same order. */
  lemma ConsistentKeys(n: Node)
    requires Consistent(n)
    ensures Keys(n.table) == Keys(n.hashTable)
  {
    forall i | 0 <= i < |n.table|
      ensures Keys(n.table)[i] == Keys(n.hashTable)[i]
    {
      assert EntryAgrees(n, i);
    }
  }
}

=== FILE: deep_struct_lemmas.dfy ===
/**
  Properties of `DeepStruct` construction and of `to_h` that relate several
  calls: the two tables agree entry by entry, `to_h` gives back the input
  with its top-level keys symbolised, and a node can be rebuilt from its own
  `to_h`.
 */
module DeepStructLemmas {
  import opened Wrappers
  import opened RubyHash
  import opened Values
  import opened DeepStruct

  /** One loop iteration keeps the two tables consistent. */
  lemma StorePairConsistent(acc: Node, p: (Key, Value))
    requires Consistent(acc)
    ensures StorePair(acc, p).Success? ==> Consistent(StorePair(acc, p).value)
  {
    if StorePair(acc, p).Success? {
      var key := ToSym(p.0).value;
      var field := ToDeepStruct(p.1).value;
      var r := StorePair(acc, p).value;
      ConsistentKeys(acc);
      assert r == Node(Store(acc.table, key, field), Store(acc.hashTable, key, p.1));
      match Find(Keys(acc.hashTable), key)
      case Some(i) =>
        assert r.table == acc.table[i := (key, field)];
        assert r.hashTable == acc.hashTable[i := (key, p.1)];
        forall j | 0 <= j < |r.table|
          ensures EntryAgrees(r, j)
        {
          if j != i {
            assert EntryAgrees(acc, j);
          }
        }
      case None =>
        assert r.table == acc.table + [(key, field)];
        assert r.hashTable == acc.hashTable + [(key, p.1)];
        forall j | 0 <= j < |r.table|
          ensures EntryAgrees(r, j)
        {
          if j < |acc.table| {
            assert EntryAgrees(acc, j);
          }
        }
    }
  }

  /** The `each_pair` loop leaves the two tables consistent. */
  lemma {:induction false} EachPairConsistent(ps: seq<(Key, Value)>)
    ensures EachPair(ps).Success? ==> Consistent(EachPair(ps).value)
    decreases |ps|
  {
    if ps != [] {
      EachPairConsistent(ps[..|ps| - 1]);
      if EachPair(ps[..|ps| - 1]).Success? {
        StorePairConsistent(EachPair(ps[..|ps| - 1]).value, ps[|ps| - 1]);
      }
    }
  }

  /** Every node `DeepStruct.new` builds is consistent. */
  lemma NewConsistent(hash: Option<seq<(Key, Value)>>)
    ensures New(hash).Success? ==> Consistent(New(hash).value)
  {
    if hash.Some? {
      EachPairConsistent(hash.value);
    }
  }

  /**
    Reading a field of a consistent node finds a value exactly when `to_h`
    holds one under that name, and the field is the conversion of that
    original value.
   */
  lemma FieldMatchesSnapshot(n: Node, s: Symbol)
    requires Consistent(n)
    ensures Get(n, s).Some? <==> Lookup(ToH(n), s).Some?
    ensures Get(n, s).Some? ==> ToDeepStruct(Lookup(ToH(n), s).value) == Success(Get(n, s).value)
  {
    ConsistentKeys(n);
    match Find(Keys(n.table), s)
    case Some(i) =>
      assert EntryAgrees(n, i);
    case None =>
  }

  /** `DeepStruct.new(nil)` has no fields and its `to_h` is empty. */
  lemma NilInput(s: Symbol)
    ensures New(None) == Success(EmptyNode)
    ensures ToH(EmptyNode) == [] && Get(EmptyNode, s) == None
  {
  }

  /**
    A `Hash` value is also `Enumerable`, yet it is converted into a nested
    node built by the same constructor, never into a list; the nested node
    is consistent in turn.
   */
  lemma HashBecomesNode(ps: seq<(Key, Value)>)
    ensures IsHash(VHash(ps)) && IsEnumerable(VHash(ps))
    ensures match New(Some(ps))
      case Success(n) => ToDeepStruct(VHash(ps)) == Success(FNode(n)) && Consistent(n)
      case Failure(e) => ToDeepStruct(VHash(ps)) == Failure(e)
  {
    NewConsistent(Some(ps));
  }

  /** Mapping a non-empty list maps all but its last element and appends the last one converted. */
  lemma MapToDeepStructStep(vs: seq<Value>)
    requires vs != [] && MapToDeepStruct(vs).Success?
    ensures MapToDeepStruct(vs[..|vs| - 1]).Success? && ToDeepStruct(vs[|vs| - 1]).Success?
    ensures MapToDeepStruct(vs).value == MapToDeepStruct(vs[..|vs| - 1]).value + [ToDeepStruct(vs[|vs| - 1]).value]
  {
  }

  /** Conversion maps every element, position by position. */
  lemma {:induction false} MapToDeepStructElementwise(vs: seq<Value>)
    ensures MapToDeepStruct(vs).Success? ==>
      forall i | 0 <= i < |vs| :: ToDeepStruct(vs[i]) == Success(MapToDeepStruct(vs).value[i])
    decreases |vs|
  {
    if vs != [] && MapToDeepStruct(vs).Success? {
      var init := vs[..|vs| - 1];
      MapToDeepStructElementwise(init);
      MapToDeepStructStep(vs);
      var r := MapToDeepStruct(vs).value;
      forall i | 0 <= i < |vs|
        ensures ToDeepStruct(vs[i]) == Success(r[i])
      {
        if i < |vs| - 1 {
          assert vs[i] == init[i];
        }
      }
    }
  }

  /** A non-hash enumerable becomes a list of the same length whose element `i` is the conversion of element `i`. */
  lemma ListKeepsLengthAndOrder(vs: seq<Value>)
    ensures ToDeepStruct(VList(vs)).Success? <==> forall i | 0 <= i < |vs| :: Symbolizable(vs[i])
    ensures ToDeepStruct(VList(vs)).Success? ==>
      var f := ToDeepStruct(VList(vs)).value;
      && f.FList?
      && |f.items| == |vs|
      && forall i | 0 <= i < |vs| :: ToDeepStruct(vs[i]) == Success(f.items[i])
  {
    MapToDeepStructElementwise(vs);
  }

  /**
    When no two top-level keys symbolise to the same symbol, `to_h` of the
    node built from `ps` is `ps` itself with each top-level key symbolised,
    in the same order; nested values keep their original keys.
   */
  lemma {:induction false} ToHRoundTrip(ps: seq<(Key, Value)>)
    requires TopKeysSymbolizable(ps) && Distinct(SymbolKeys(ps))
    ensures New(Some(ps)).Success? ==> ToH(New(Some(ps)).value) == SymbolizeTop(ps)
    decreases |ps|
  {
    if ps != [] && EachPair(ps).Success? {
      var init := ps[..|ps| - 1];
      var p := ps[|ps| - 1];
      assert SymbolKeys(init) == SymbolKeys(ps)[..|ps| - 1];
      ToHRoundTrip(init);
      var acc := EachPair(init).value;
      assert Keys(acc.hashTable) == SymbolKeys(init);
      var key := ToSym(p.0).value;
      assert key == SymbolKeys(ps)[|ps| - 1];
      assert key !in SymbolKeys(init);
      assert EachPair(ps).value.hashTable == acc.hashTable + [(key, p.1)];
      assert SymbolizeTop(ps) == SymbolizeTop(init) + [(key, p.1)];
    }
  }

  /**
    Whatever the collisions, `to_h` holds under each symbol the value of the
    last input pair whose key symbolises to it: a later pair overwrites an
    earlier one.
   */
  lemma {:induction false} ToHLastPairWins(ps: seq<(Key, Value)>, s: Symbol)
    ensures New(Some(ps)).Success? ==> Lookup(ToH(New(Some(ps)).value), s) == LastValueFor(ps, s)
    decreases |ps|
  {
    if ps != [] && EachPair(ps).Success? {
      var init := ps[..|ps| - 1];
      var p := ps[|ps| - 1];
      ToHLastPairWins(init, s);
      var acc := EachPair(init).value;
      var key := ToSym(p.0).value;
      assert EachPair(ps).value.hashTable == Store(acc.hashTable, key, p.1);
      LookupAfterStore(acc.hashTable, key, p.1, s);
      assert LastValueFor(ps, s) == if key == s then Some(p.1) else LastValueFor(init, s);
    }
  }

  /**
    Whatever the collisions, the field under each symbol is the conversion
    of the last input value whose key symbolises to it, and a symbol no key
    symbolises to has no field: the later pair overwrites `@table` too.
   */
  lemma FieldIsLastConverted(ps: seq<(Key, Value)>, s: Symbol)
    requires New(Some(ps)).Success?
    ensures LastValueFor(ps, s).Some? ==>
      Get(New(Some(ps)).value, s).Some? && ToDeepStruct(LastValueFor(ps, s).value) == Success(Get(New(Some(ps)).value, s).value)
    ensures LastValueFor(ps, s).None? ==> Get(New(Some(ps)).value, s).None?
  {
    NewConsistent(Some(ps));
    ToHLastPairWins(ps, s);
    FieldMatchesSnapshot(New(Some(ps)).value, s);
  }

  /** First occurrences of the symbolised keys of `ps`, computed from those of all but its last pair. */
  lemma FirstOccurrencesSnoc(ps: seq<(Key, Value)>)
    requires ps != [] && TopKeysSymbolizable(ps)
    ensures
      var d := FirstOccurrences(SymbolKeys(ps[..|ps| - 1]));
      var k := ToSym(ps[|ps| - 1].0).value;
      FirstOccurrences(SymbolKeys(ps)) == if k in d then d else d + [k]
  {
    assert SymbolKeys(ps[..|ps| - 1]) == SymbolKeys(ps)[..|ps| - 1];
  }

  /** The loop leaves the keys of `@hash_table` in the order in which each symbolised key first occurs. */
  lemma {:induction false} EachPairKeyOrder(ps: seq<(Key, Value)>)
    ensures EachPair(ps).Success? ==>
      TopKeysSymbolizable(ps) && Keys(EachPair(ps).value.hashTable) == FirstOccurrences(SymbolKeys(ps))
    decreases |ps|
  {
    if ps != [] && EachPair(ps).Success? {
      var init := ps[..|ps| - 1];
      var p := ps[|ps| - 1];
      EachPairKeyOrder(init);
      var acc := EachPair(init).value;
      var key := ToSym(p.0).value;
      assert Keys(EachPair(ps).value.hashTable) == Keys(Store(acc.hashTable, key, p.1));
      FirstOccurrencesSnoc(ps);
    }
  }

  /**
    The keys of `to_h` are the symbolised top-level keys in the order in
    which each first occurs: an overwrite does not move a key.
   */
  lemma ToHKeyOrder(ps: seq<(Key, Value)>)
    ensures New(Some(ps)).Success? ==>
      TopKeysSymbolizable(ps) && Keys(ToH(New(Some(ps)).value)) == FirstOccurrences(SymbolKeys(ps))
  {
    EachPairKeyOrder(ps);
  }

  /** The hash `to_h` returns, with its symbol keys as hash keys. */
  function AsPairs(t: Table<Symbol, Value>): (ps: seq<(Key, Value)>)
    ensures |ps| == |t|
  {
    seq(|t|, i requires 0 <= i < |t| => (KSymbol(t[i].0), t[i].1))
  }

  /** A loop iteration on a key neither table holds appends one entry to each. */
  lemma StorePairFreshKey(acc: Node, s: Symbol, v: Value, f: Field)
    requires Keys(acc.table) == Keys(acc.hashTable) && s !in Keys(acc.hashTable)
    requires ToDeepStruct(v) == Success(f)
    ensures StorePair(acc, (KSymbol(s), v)) == Success(Node(acc.table + [(s, f)], acc.hashTable + [(s, v)]))
  {
  }

  /** Appending a pair to the input runs one more loop iteration on the node built so far. */
  lemma EachPairExtend(init: seq<(Key, Value)>, p: (Key, Value), acc: Node)
    requires EachPair(init) == Success(acc)
    ensures EachPair(init + [p]) == StorePair(acc, p)
  {
    assert (init + [p])[..|init|] == init;
  }

  /** A node without its last entry in either table. */
  function DropLast(n: Node): (m: Node)
    requires n.table != [] && n.hashTable != []
    ensures |m.table| == |n.table| - 1 && |m.hashTable| == |n.hashTable| - 1
  {
    Node(n.table[..|n.table| - 1], n.hashTable[..|n.hashTable| - 1])
  }

  /**
    Dropping the last entry of a consistent node leaves a consistent node
    that lacks the dropped key, and the dropped field is the conversion of
    the dropped original value.
   */
  lemma DropLastConsistent(n: Node)
    requires Consistent(n) && n.table != []
    ensures
      var m := DropLast(n);
      var k := |n.table| - 1;
      && Consistent(m)
      && Keys(m.table) == Keys(m.hashTable)
      && n.hashTable[k].0 !in Keys(m.hashTable)
      && ToDeepStruct(n.hashTable[k].1) == Success(n.table[k].1)
      && n.table == m.table + [(n.hashTable[k].0, n.table[k].1)]
      && n.hashTable == m.hashTable + [(n.hashTable[k].0, n.hashTable[k].1)]
  {
    var m := DropLast(n);
    var k := |n.table| - 1;
    forall i | 0 <= i < |m.table|
      ensures EntryAgrees(m, i)
    {
      assert EntryAgrees(n, i);
    }
    assert Keys(m.hashTable) == Keys(n.hashTable)[..k];
    ConsistentKeys(m);
    assert EntryAgrees(n, k);
  }

  /** One more entry under a fresh key, replayed through the loop, extends both rebuilt tables by one entry. */
  lemma RebuildStep(m: Node, s: Symbol, v: Value, f: Field)
    requires EachPair(AsPairs(m.hashTable)) == Success(m)
    requires Keys(m.table) == Keys(m.hashTable) && s !in Keys(m.hashTable)
    requires ToDeepStruct(v) == Success(f)
    ensures EachPair(AsPairs(m.hashTable + [(s, v)])) == Success(Node(m.table + [(s, f)], m.hashTable + [(s, v)]))
  {
    assert AsPairs(m.hashTable + [(s, v)]) == AsPairs(m.hashTable) + [(KSymbol(s), v)];
    EachPairExtend(AsPairs(m.hashTable), (KSymbol(s), v), m);
    StorePairFreshKey(m, s, v, f);
  }

  /** Replaying a consistent node's snapshot through the loop rebuilds the node. */
  lemma {:induction false} RebuildConsistent(n: Node)
    requires Consistent(n)
    ensures EachPair(AsPairs(n.hashTable)) == Success(n)
    decreases |n.table|
  {
    if n.table == [] {
      assert AsPairs(n.hashTable) == [];
    } else {
      var m := DropLast(n);
      var k := |n.table| - 1;
      DropLastConsistent(n);
      RebuildConsistent(m);
      RebuildStep(m, n.hashTable[k].0, n.hashTable[k].1, n.table[k].1);
    }
  }

  /** `DeepStruct.new(node.to_h)` rebuilds the node exactly: `to_h` loses nothing. */
  lemma RebuildFromToH(ps: seq<(Key, Value)>)
    ensures New(Some(ps)).Success? ==> New(Some(AsPairs(ToH(New(Some(ps)).value)))) == New(Some(ps))
  {
    if New(Some(ps)).Success? {
      var n := New(Some(ps)).value;
      NewConsistent(Some(ps));
      RebuildConsistent(n);
    }
  }

  /**
    Two keys that symbolise alike, `"a"` and `:a`: the later pair wins in
    both tables and the key keeps a single entry.
   */
  lemma CollisionExample()
    ensures
      var ps := [(KString("a"), VScalar(Int(1))), (KSymbol(Symbol("a")), VScalar(Int(2)))];
      New(Some(ps)) == Success(Node([(Symbol("a"), FScalar(Int(2)))], [(Symbol("a"), VScalar(Int(2)))]))
  {
    var ps := [(KString("a"), VScalar(Int(1))), (KSymbol(Symbol("a")), VScalar(Int(2)))];
    var a := Symbol("a");
    assert ps[..1] == [ps[0]];
    assert ps[..1][..0] == [];
    assert EachPair(ps[..1][..0]) == Success(EmptyNode);
    assert Store([], a, FScalar(Int(1))) == [(a, FScalar(Int(1)))];
    assert Store([], a, VScalar(Int(1))) == [(a, VScalar(Int(1)))];
    var first := Node([(a, FScalar(Int(1)))], [(a, VScalar(Int(1)))]);
    assert StorePair(EmptyNode, ps[0]) == Success(first);
    assert EachPair(ps[..1]) == Success(first);
    assert Find(Keys(first.table), a) == Some(0);
    assert Find(Keys(first.hashTable), a) == Some(0);
    assert Store(first.table, a, FScalar(Int(2))) == [(a, FScalar(Int(2)))];
    assert Store(first.hashTable, a, VScalar(Int(2))) == [(a, VScalar(Int(2)))];
    assert StorePair(first, ps[1]) == Success(Node([(a, FScalar(Int(2)))], [(a, VScalar(Int(2)))]));
  }

  /** A one-pair hash becomes a node with one field, holding the converted value, and one snapshot entry, holding the original. */
  lemma SinglePair(k: Key, v: Value)
    requires ToSym(k).Some? && ToDeepStruct(v).Success?
    ensures New(Some([(k, v)])) == Success(Node([(ToSym(k).value, ToDeepStruct(v).value)], [(ToSym(k).value, v)]))
  {
    var s := ToSym(k).value;
    var f := ToDeepStruct(v).value;
    assert [(k, v)][..0] == [];
    assert EachPair([]) == Success(EmptyNode);
    assert Store([], s, f) == [(s, f)];
    assert Store([], s, v) == [(s, v)];
    assert StorePair(EmptyNode, (k, v)) == Success(Node([(s, f)], [(s, v)]));
  }

  /**
    Nested hashes convert all the way down: in `{"a" => {"b" => {"c" => 1}}}`
    field `a` is a node whose field `b` is a node whose field `c` is `1`,
    while `to_h` gives the nested hashes back with their string keys.
   */
  lemma NestedExample()
    ensures
      var inner := VHash([(KString("c"), VScalar(Int(1)))]);
      var middle := VHash([(KString("b"), inner)]);
      var r := New(Some([(KString("a"), middle)]));
      && r.Success?
      && ToH(r.value) == [(Symbol("a"), middle)]
      && Get(r.value, Symbol("a")).Some? && Get(r.value, Symbol("a")).value.FNode?
      && var m := Get(r.value, Symbol("a")).value.node;
         && Get(m, Symbol("b")).Some? && Get(m, Symbol("b")).value.FNode?
         && Get(Get(m, Symbol("b")).value.node, Symbol("c")) == Some(FScalar(Int(1)))
  {
    var inner := VHash([(KString("c"), VScalar(Int(1)))]);
    var middle := VHash([(KString("b"), inner)]);
    var one := FScalar(Int(1));
    SinglePair(KString("c"), VScalar(Int(1)));
    var innerNode := Node([(Symbol("c"), one)], [(Symbol("c"), VScalar(Int(1)))]);
    assert ToDeepStruct(inner) == Success(FNode(innerNode));
    SinglePair(KString("b"), inner);
    var middleNode := Node([(Symbol("b"), FNode(innerNode))], [(Symbol("b"), inner)]);
    assert ToDeepStruct(middle) == Success(FNode(middleNode));
    SinglePair(KString("a"), middle);
    var root := Node([(Symbol("a"), FNode(middleNode))], [(Symbol("a"), middle)]);
    assert New(Some([(KString("a"), middle)])) == Success(root);
    assert Find(Keys(root.table), Symbol("a")) == Some(0);
    assert Find(Keys(middleNode.table), Symbol("b")) == Some(0);
    assert Find(Keys(innerNode.table), Symbol("c")) == Some(0);
  }

  /**
    The inherited constructor symbolises every top-level key before any
    value is converted, so a bad top-level key is the one reported even
    when an earlier value holds a nested bad key.
   */
  lemma TopLevelKeyReportedFirst()
    ensures
      var ps := [(KString("a"), VHash([(KOther(1), VScalar(Nil))])), (KOther(2), VScalar(Nil))];
      New(Some(ps)) == Failure(NoToSym(KOther(2)))
  {
    var ps := [(KString("a"), VHash([(KOther(1), VScalar(Nil))])), (KOther(2), VScalar(Nil))];
    assert ps[1..][1..] == [];
    assert FirstBadKey(ps[1..]) == Some(KOther(2));
  }

  /** A key with no `to_sym` anywhere in the input aborts construction, naming such a key. */
  lemma BadKeyAborts(ps: seq<(Key, Value)>, i: nat)
    requires i < |ps| && !PairSymbolizable(ps[i])
    ensures New(Some(ps)).Failure? && ToSym(New(Some(ps)).error.key).None?
  {
  }
}

=== FILE: ruby_hash.dfy ===
/**
  Insertion-ordered association lists with the semantics of Ruby's `Hash`:
  keys are unique, iteration follows insertion order, and assigning to a
  key that is already present replaces its value in place without moving it.
 */
module RubyHash {
  import opened Wrappers

  type Table<K, V> = seq<(K, V)>

  /** The keys of a table, in iteration order. */
  function Keys<K, V>(t: Table<K, V>): (ks: seq<K>)
    ensures |ks| == |t|
    ensures forall i :: 0 <= i < |t| ==> ks[i] == t[i].0
  {
    seq(|t|, i requires 0 <= i < |t| => t[i].0)
  }

  /** No element occurs twice. */
  predicate Distinct<K(==)>(ks: seq<K>) {
    forall i, j :: 0 <= i < j < |ks| ==> ks[i] != ks[j]
  }

  /** The position of the first occurrence of `k` in `ks`, if there is one. */
  function Find<K(==)>(ks: seq<K>, k: K): (r: Option<nat>)
    ensures r.None? <==> k !in ks
    ensures r.Some? ==> r.value < |ks| && ks[r.value] == k && k !in ks[..r.value]
  {
    if ks == [] then None
    else if ks[0] == k then Some(0)
    else
      match Find(ks[1..], k)
      case None => None
      case Some(i) =>
        assert ks[..i + 1] == [ks[0]] + ks[1..][..i];
        Some(i + 1)
  }

  /** A first occurrence is unique: any position before which `k` does not occur is the one `Find` reports. */
  lemma FindFirst<K>(ks: seq<K>, k: K, i: nat)
    requires i < |ks| && ks[i] == k && k !in ks[..i]
    ensures Find(ks, k) == Some(i)
  {
  }

  /** `t[k]`: the value stored under `k`, or `None` (Ruby's `nil`) when there is none. */
  function Lookup<K(==), V>(t: Table<K, V>, k: K): (r: Option<V>)
    ensures r.Some? <==> k in Keys(t)
    ensures r.Some? ==> (k, r.value) in t
  {
    match Find(Keys(t), k)
    case None => None
    case Some(i) => Some(t[i].1)
  }

  /** `t[k] = v`: replace the value of `k` in place when present, append `(k, v)` otherwise. */
  function Store<K(==), V>(t: Table<K, V>, k: K, v: V): (r: Table<K, V>)
    ensures Keys(r) == if k in Keys(t) then Keys(t) else Keys(t) + [k]
    ensures Distinct(Keys(t)) ==> Distinct(Keys(r))
  {
    match Find(Keys(t), k)
    case Some(i) =>
      var r := t[i := (k, v)];
      assert Keys(r) == Keys(t);
      r
    case None =>
      var r := t + [(k, v)];
      assert Keys(r) == Keys(t) + [k];
      r
  }

  /** After `t[k] = v`, looking up `k` gives `v` and every other key reads as before. */
  lemma LookupAfterStore<K, V>(t: Table<K, V>, k: K, v: V, k': K)
    ensures Lookup(Store(t, k, v), k') == if k' == k then Some(v) else Lookup(t, k')
  {
    var r := Store(t, k, v);
    match Find(Keys(t), k)
    case Some(i) =>
      assert Keys(r) == Keys(t);
    case None =>
      assert Keys(r) == Keys(t) + [k];
      if k' == k {
        FindFirst(Keys(r), k, |t|);
      } else if k' in Keys(t) {
        var j := Find(Keys(t), k').value;
        assert Keys(r)[..j] == Keys(t)[..j];
        FindFirst(Keys(r), k', j);
      }
  }
}

=== FILE: values.dfy ===
/**
  The nested input a `DeepStruct` is built from: the kind of value a parsed
  configuration file produces. Hashes, other enumerables (arrays, sets,
  ranges, ...) and scalars are told apart by a tag, and hash keys are the
  few kinds of object a configuration key can be.
 */
module Values {
  import opened Wrappers
  import opened RubyHash

  /** A Ruby `Symbol`, identified by its name. */
  datatype Symbol = Symbol(name: string)

  /** A hash key: a `String`, a `Symbol`, or some other object (an `Integer`, say) that has no `to_sym`. */
  datatype Key = KString(str: string) | KSymbol(sym: Symbol) | KOther(id: int)

  /** `key.to_sym`; `None` stands for the `NoMethodError` raised by keys that do not respond to it. */
  function ToSym(k: Key): (r: Option<Symbol>)
    ensures r.None? <==> k.KOther?
    ensures k.KSymbol? ==> r == Some(k.sym)
  {
    match k
    case KString(s) => Some(Symbol(s))
    case KSymbol(s) => Some(s)
    case KOther(_) => None
  }

  /** Symbolising a key that is already the result of `to_sym` gives the same symbol back. */
  lemma ToSymIdempotent(k: Key)
    ensures ToSym(k).Some? ==> ToSym(KSymbol(ToSym(k).value)) == ToSym(k)
  {
  }

  /** Values that are neither a `Hash` nor an `Enumerable`. */
  datatype Scalar = Nil | Bool(b: bool) | Int(i: int) | Str(s: string) | Sym(sym: Symbol)

  datatype Value =
    | VHash(pairs: seq<(Key, Value)>)
    | VList(items: seq<Value>)
    | VScalar(scalar: Scalar)

  /** `value.is_a?(Hash)` */
  predicate IsHash(v: Value) {
    v.VHash?
  }

  /** `value.is_a?(Enumerable)`: `Hash` includes `Enumerable`, so a hash is enumerable too. */
  predicate IsEnumerable(v: Value) {
    v.VHash? || v.VList?
  }

  /** Every hash key reachable from `v`, through hashes and enumerables, responds to `to_sym`. */
  predicate Symbolizable(v: Value)
    decreases v
  {
    match v
    case VHash(ps) => forall i | 0 <= i < |ps| :: PairSymbolizable(ps[i])
    case VList(vs) => forall i | 0 <= i < |vs| :: Symbolizable(vs[i])
    case VScalar(_) => true
  }

  predicate PairSymbolizable(p: (Key, Value))
    decreases p
  {
    ToSym(p.0).Some? && Symbolizable(p.1)
  }

  /** Every top-level key of `ps` responds to `to_sym`. */
  predicate TopKeysSymbolizable(ps: seq<(Key, Value)>) {
    forall i | 0 <= i < |ps| :: ToSym(ps[i].0).Some?
  }

  /** The first top-level key of `ps` that has no `to_sym`, if there is one. */
  function FirstBadKey(ps: seq<(Key, Value)>): (r: Option<Key>)
    ensures r.None? <==> TopKeysSymbolizable(ps)
    ensures r.Some? ==> exists i | 0 <= i < |ps| ::
      && ps[i].0 == r.value && ToSym(r.value).None?
      && forall j | 0 <= j < i :: ToSym(ps[j].0).Some?
  {
    if ps == [] then None
    else if ToSym(ps[0].0).None? then Some(ps[0].0)
    else
      var r := FirstBadKey(ps[1..]);
      assert forall i | 0 <= i < |ps[1..]| :: ps[1..][i] == ps[i + 1];
      r
  }

  /** The top-level keys of `ps` after `to_sym`, in iteration order. */
  function SymbolKeys(ps: seq<(Key, Value)>): (ks: seq<Symbol>)
    requires TopKeysSymbolizable(ps)
    ensures |ks| == |ps|
  {
    seq(|ps|, i requires 0 <= i < |ps| => ToSym(ps[i].0).value)
  }

  /** `ps` with every top-level key replaced by its `to_sym`; nested values are left as they are. */
  function SymbolizeTop(ps: seq<(Key, Value)>): (t: seq<(Symbol, Value)>)
    requires TopKeysSymbolizable(ps)
    ensures |t| == |ps|
  {
    seq(|ps|, i requires 0 <= i < |ps| => (ToSym(ps[i].0).value, ps[i].1))
  }

  /** The elements of `xs` without repeats, each where it first occurs. */
  function FirstOccurrences(xs: seq<Symbol>): (d: seq<Symbol>)
    ensures Distinct(d)
    ensures forall x :: x in d <==> x in xs
  {
    if xs == [] then []
    else
      var d := FirstOccurrences(xs[..|xs| - 1]);
      if xs[|xs| - 1] in d then d else d + [xs[|xs| - 1]]
  }

  /** The value of the LAST pair of `ps` whose key symbolises to `s`, if any. */
  function LastValueFor(ps: seq<(Key, Value)>, s: Symbol): (r: Option<Value>)
    ensures r.None? <==> forall i | 0 <= i < |ps| :: ToSym(ps[i].0) != Some(s)
    ensures r.Some? ==> exists i | 0 <= i < |ps| ::
      && ToSym(ps[i].0) == Some(s) && ps[i].1 == r.value
      && forall j | i < j < |ps| :: ToSym(ps[j].0) != Some(s)
  {
    if ps == [] then None
    else if ToSym(ps[|ps| - 1].0) == Some(s) then Some(ps[|ps| - 1].1)
    else LastValueFor(ps[..|ps| - 1], s)
  }
}

=== FILE: wrappers.dfy ===
/** Option, and the failure-compatible Result, used throughout the model. */
module Wrappers {

  /** Some/None, standing in for a Ruby value that may be `nil`. */
  datatype Option<+T> = None | Some(value: T)

  /** A computation that either produces a value or aborts with an error. */
  datatype Result<+R, +E> = Success(value: R) | Failure(error: E) {

    predicate IsFailure() {
      Failure?
    }

    function PropagateFailure<U>(): Result<U, E>
      requires Failure?
    {
      Failure(error)
    }

    function Extract(): R
      requires Success?
    {
      value
    }
  }
}
